=== FILE: README.md ===
# sliderloop in Dafny

A model of `sliderloop`, a Pure Data external that records a stream of slider
values with their arrival times and replays them in an endless loop with the
same relative timing, and that saves the recording to a text file and loads it
back.

The object is one immutable record, `SliderState.State`, holding the fields of
`t_sliderloop`: the `recording` flag and `recordStart`, the event storage with
its `count` and `capacity`, and the `playing` flag with `playStart` and the play
cursor `playIndex`. Every handler is a pure function of that record. What the
handlers take from the outside world is passed in:

- the wall clock: each reading is a parameter (`now`, and `later` where a
  handler reads the clock a second time, when it schedules the next tick);
- the allocator: an `Allocator` says whether resizing the storage to a given
  capacity succeeds (keyed by the requested capacity, so within one run of
  `Feed` a capacity once refused is refused again for every later input);
- the Pd timer and outlet: a handler returns the effects it performed, in order
  — `Arm(delay)`, `Cancel`, `Emit(value)`;
- the file system: `save` produces a `SavedFile` (header line, then the rows in
  order); `load` consumes a `FileRead` (the file did not open, or the characters
  `fgets` took as its first line and the (time, value) pairs `fscanf` then
  accepted — whitespace-separated numbers, not lines, starting right after the
  characters `fgets` took, up to its first mismatch).

Modules follow the parts of the source file:

- `SliderState` (`state.dfy`): the record, the effects, the invariant `Valid`
  (`0 <= count <= capacity`, storage of exactly `capacity` slots, cursor not
  negative) and the recording `Contents` (the first `count` slots).
- `EventBuffer` (`event_buffer.dfy`): growth and the record path's append.
- `Scheduler` (`scheduler.dfy`): arming the timer and the timer callback.
- `Controller` (`controller.dfy`): the float input, `record`, `stop`, `play`.
- `Persistence` (`persistence.dfy`): `save` and `load`.

Facts about the code that the model keeps as written:

- `record` (sliderloop.c:93-97) does not clear `playing` or cancel the timer,
  and `play` tests for an empty buffer (line 108) before it stops anything
  (line 110). So only `stop` and a `play` that starts guarantee that at most
  one flag is set. `RecordWhilePlaying` and `PlayEmptyKeepsRecording` show
  both cases.
- `record` during playback (lines 93-97) keeps `playing`, the cursor,
  `playStart` and the pending timer. A tick that fires before any input
  arrives finds an empty recording and fails its guard at line 71, so
  playback halts while `playing` stays set (`TickAfterRecordIsSilent`). Once
  more inputs than the cursor have arrived, the tick passes the guard: it
  sends the new recording's event under the old cursor and times the next
  event against the old `playStart`, unless that event was the last one, in
  which case the pass restarts at the tick's clock reading (lines 78-80).
  Either way playback loops over the recording while it is still being made
  (`TickAfterRecordAndInputs`).
- `load` (lines 136-177) leaves the flags, the cursor, `playStart` and the
  pending timer alone. When the new count is no greater than the kept cursor
  (a shorter file, a rejected header, an early memory error) the pending tick
  fails its guard at line 71: it sends nothing and arms nothing, so playback
  halts while `playing` stays set. Otherwise the tick sends the new recording's
  event under the old cursor and times the next event against the old
  `playStart`, unless that event was the last one, in which case the pass
  restarts at the tick's clock reading (lines 78-80). `TickAfterLoad` shows
  both cases.
- Events recorded with a clock that does not go backward are in time order
  (`RecordedTimesNonDecreasing`). A load stores rows in whatever order the file
  gives them, so time order is not an invariant of the object.

## Model

| member | source | states |
|---|---|---|
| SliderState.Init | sliderloop.c:190-194 | a new object is idle (neither recording nor playing), has no storage, and its recording is empty |
| EventBuffer.Grow | sliderloop.c:43-46 | a successful reallocation to a larger capacity keeps every recorded event and the count |
| EventBuffer.Store | sliderloop.c:52-54 | writing into the first free slot extends the recording by exactly that event, keeping the invariant |
| EventBuffer.RecordGrowth | sliderloop.c:41-42 | a full buffer asks for double its capacity, and never less than 16 |
| EventBuffer.AddEvent | sliderloop.c:39-55 | with room, or when growth succeeds, the recording gains the event stamped `now - recordStart` at its end, with capacity unchanged or grown to `RecordGrowth`; when growth is refused, nothing changes; the invariant holds and no control field changes |
| EventBuffer.AddEventAppendsOne | sliderloop.c:49-54 | a successful append raises the count by exactly one, stores `(now - recordStart, value)` at the old count and leaves every earlier slot as it was |
| Scheduler.DelayUntil | sliderloop.c:61-65 | the delay is never negative; the timer fires exactly at the target when the target lies ahead, and immediately when it has passed |
| Scheduler.ScheduleNext | sliderloop.c:58-67 | nothing is armed when not playing or when the cursor is at or past the count; otherwise exactly one timer is armed, for the cursor's event relative to the start of the pass |
| Scheduler.PlaybackTick | sliderloop.c:70-83 | when its guard holds, a tick sends exactly the cursor's value, advances the cursor, keeps it inside the recording, restarts the pass at `now` after the last event, and arms the next tick; when the guard fails it sends nothing, arms nothing and changes nothing; the buffer is never changed |
| Scheduler.RunTicks | sliderloop.c:70-83 | any run of ticks keeps the invariant and the buffer, and a cursor inside the recording stays inside it |
| Scheduler.ReplayToEnd | sliderloop.c:70-82 | from any cursor position, one tick per remaining event sends the rest of the recording out in order and brings the cursor back to 0 |
| Controller.OnFloat | sliderloop.c:86-90 | a value is appended only while recording; otherwise the state is untouched |
| Controller.StartRecording | sliderloop.c:93-97 | `record` sets `recording` and `recordStart := now` and empties the recording, while keeping the storage, the capacity, `playing` and the cursor |
| Controller.Stop | sliderloop.c:100-104 | `stop` clears both flags and cancels the timer, changing nothing else |
| Controller.StopIdempotent | sliderloop.c:100-104 | stopping twice is the same as stopping once |
| Controller.StartPlayback | sliderloop.c:107-115 | on an empty buffer nothing changes and nothing is requested; otherwise recording ends, playing starts at cursor 0 with the pass starting at `now`, the timer is cancelled and then armed for the first event |
| Controller.PlaybackLoops | sliderloop.c:70-115 | after `play`, one tick per event sends the whole recording in order and the cursor is back at the first event, still playing |
| Controller.TwoEventPass | sliderloop.c:58-115 | events `(0, 1.0)` and `(100, 2.0)` played from time t: 1.0 goes out at t, 2.0 at t+100, and the pass restarts at t+100 with the first event due at once |
| Controller.RecordWhilePlaying | sliderloop.c:93-97 | `record` during playback leaves both `recording` and `playing` set |
| Controller.TickAfterRecordIsSilent | sliderloop.c:71-97 | a tick left pending by `record` during playback that fires before any input arrives finds an empty recording and does nothing, though `playing` stays set |
| Controller.TickAfterRecordAndInputs | sliderloop.c:70-97 | when more inputs than the kept cursor arrive after `record` during playback, the pending tick sends the new recording's event under the old cursor and arms the next one against the old `playStart`, unless that event was the last one, in which case the pass restarts at the tick's clock reading and arms event 0 from there; both flags stay set |
| Controller.PlayEmptyKeepsRecording | sliderloop.c:107-110 | `play` on an empty buffer leaves a recording in progress running |
| Controller.Feed | sliderloop.c:86-90 | feeding any inputs keeps the invariant and the control fields and never lowers the count |
| Controller.FeedKeepsPrefix | sliderloop.c:86-90 | feeding any inputs, recording or not and with or without memory, leaves the old recording a prefix of the new one |
| Controller.OnFloatRecords | sliderloop.c:86-90 | while recording and while memory lasts, one input adds exactly one event, stamped relative to `recordStart`, and recording goes on |
| Controller.RecordTimestamps | sliderloop.c:49-54 | while recording and while memory lasts, n inputs become exactly n new events, the i-th stamped with its arrival time less `recordStart` |
| Controller.RecordedTimesNonDecreasing | sliderloop.c:49-54 | after `record` at time t, with input times no earlier than t and non-decreasing, the recorded times are non-negative and non-decreasing |
| Controller.RecordFromStart | sliderloop.c:86-97 | after `record` at time t, the recording is exactly the inputs that followed, stamped relative to t |
| Persistence.Save | sliderloop.c:117-134 | when the file opens, the header line and then every event of the recording in order; otherwise nothing is written |
| Persistence.SavedHeaderAccepted | sliderloop.c:125 | the header `save` writes begins with the tag that the format check at line 148 looks for |
| Persistence.LoadGrowth | sliderloop.c:159 | a full buffer asks for 64 slots when it has none, and double its capacity otherwise |
| Persistence.CapacityFor | sliderloop.c:157-167 | the capacity after n loaded rows holds them and is no smaller than the starting capacity |
| Persistence.CapacityForStep | sliderloop.c:157-167 | loading one more row either fits the current capacity or grows it by exactly one `LoadGrowth` step |
| Persistence.StoreNext | sliderloop.c:157-172 | a loaded row is stored at the end of the recording, growing the capacity by `LoadGrowth` only when the buffer was full |
| Persistence.LoadRows | sliderloop.c:156-173 | rows are appended in order: the recording keeps its old events and then holds a prefix of the rows, one per slot after them, and no control field changes |
| Persistence.LoadRowsOutcome | sliderloop.c:156-173 | a load keeps exactly the rows before the first one whose growth the allocator refused (all rows when none is refused), ends with the capacity the growth policy gives for that many rows, and reports a memory error exactly when it stopped early |
| Persistence.Load | sliderloop.c:136-177 | a file that does not open changes nothing; a first line without the `sliderloop_data` tag, or none, leaves an empty recording with the storage kept; otherwise the outcome is the one `LoadRowsOutcome` describes; flags, cursor and timer are never touched |
| Persistence.TickAfterLoad | sliderloop.c:71-177 | a load keeps `playing`, the cursor and `playStart`; the pending tick then does nothing when the new count is at most the cursor, and otherwise sends the new recording's event under the old cursor |
| Persistence.LoadKeepsAllRows | sliderloop.c:156-177 | with an accepted header and every allocation granted, the recording becomes exactly the rows read |
| Persistence.SaveLoadRoundTrip | sliderloop.c:117-177 | saving a recording and loading the file into any object reproduces the recording, while memory lasts |

## Left out

- The Pd host API (`m_pd.h`, `outlet_float`, `clock_new`, `clock_delay`,
  `clock_unset`, `class_new`, `class_addmethod`, `sliderloop_free`, `pd_new`)
  is foreign code. The timer and outlet appear only as the returned effects.
  `Init` stands for the constructor's field settings.
- `get_current_time` (`gettimeofday`) is the wall clock. Each reading is a
  parameter, and times are whole milliseconds rather than `double`s.
- `double` and `t_float` precision, and the cast of a loaded value to
  `t_float`, are floating-point behaviour. Values are reals, times are
  integers, and the cast is taken as exact.
- The file text is C library formatting: `fopen`, `fprintf` with `%.6f`,
  `fscanf` with `%lf`, and `fgets` into a 32-byte buffer. A saved file is its
  header line and its rows. `ReadBack` treats the 6-decimal formatting as
  exact, so the round trip holds exactly, not to 1e-6.
- The 32-byte `fgets` buffer takes at most 31 characters of the first line;
  the rest of a longer first line stays in the stream and `fscanf` reads it,
  so numbers past column 31 of the header line can become rows. `FileRead`
  takes the first line as the characters `fgets` took and the rows as the
  pairs `fscanf` accepted after them, so this is part of what the caller of
  `Load` supplies rather than something `Load` computes.
- `realloc` and pointer management are abstracted. An `Allocator` says which
  requested capacities are granted. Slots that growth adds hold a fixed
  filler, because their contents are indeterminate in C and are never read.
- The `post` and `pd_error` messages are not produced. `Load` returns a
  `Report` naming which message it ends with. `save` has no report.
- The C `int` fields are unbounded integers. Overflow of
  `event_capacity * 2`, or of the byte size passed to `realloc`, is not
  modelled.
- The outlet is assumed not to re-enter the object. `outlet_float`
  (line 74) runs before the cursor moves (lines 75-82); a patch that routes
  the outlet back into this object's `record`, `stop`, `play` or float input
  would run that handler in the middle of a tick, which `PlaybackTick` does not
  model.
- Feed: one `Allocator` serves the whole run and is keyed by capacity, so a
  growth refused once stays refused for later inputs of the same run, while
  `realloc` may fail once and succeed later. A single `AddEvent` takes any
  allocator, so each call on its own is modelled in full.
- Save: a write error part-way through a file is not modelled.
- AddEvent, Load: the allocator is asked about a capacity, not a byte size,
  and is assumed not to touch the storage when it refuses.

=== FILE: controller.dfy ===
/** The command and input handlers: a slider value arriving
    (`sliderloop_float`), `record`, `stop` and `play`.

    The flags are kept exactly as the handlers set them: `record` neither
    clears `playing` nor cancels the timer, and `play` on an empty buffer
    returns before stopping anything, so "at most one of recording and
    playing" is guaranteed only by `stop` and by a `play` that starts; it is
    not an invariant of the object. */
module Controller {
  import opened SliderState
  import opened EventBuffer
  import opened Scheduler

  /** One slider value and the clock reading when it arrived. */
  datatype Input = Input(value: real, at: int)

  /** A slider value arriving: appended while recording, ignored otherwise. */
  function OnFloat(s: State, value: real, now: int, alloc: Allocator): (r: State)
    requires Valid(s)
    ensures Valid(r) && SameControl(s, r)
    ensures !s.recording ==> r == s
    ensures s.recording ==> r == AddEvent(s, value, now, alloc)
  {
    if s.recording then AddEvent(s, value, now, alloc) else s
  }

  /** `record`: start a new recording at `now`. The count drops to 0 while the
      storage, the playback fields and any pending timer are left alone. */
  function StartRecording(s: State, now: int): (r: State)
    requires Valid(s)
    ensures Valid(r)
    ensures r.recording && r.recordStart == now && Contents(r) == []
    ensures r.events == s.events && r.capacity == s.capacity
    ensures r.playing == s.playing && r.playStart == s.playStart && r.playIndex == s.playIndex
  {
    s.(recording := true, recordStart := now, count := 0)
  }

  /** `stop`: clear both flags and cancel the pending timer; the buffer and
      the cursor are kept. */
  function Stop(s: State): (r: Step)
    ensures !r.state.recording && !r.state.playing
    ensures r.effects == [Cancel]
    ensures SameBuffer(s, r.state)
    ensures r.state.recordStart == s.recordStart
    ensures r.state.playStart == s.playStart && r.state.playIndex == s.playIndex
  {
    Step(s.(recording := false, playing := false), [Cancel])
  }

  /** Stopping twice is the same as stopping once. */
  lemma StopIdempotent(s: State)
    ensures Stop(Stop(s).state) == Stop(s)
  {
  }

  /** `play`: with an empty buffer nothing happens at all. Otherwise stop,
      then play from the first event with the pass starting at `now`, and arm
      the timer for it (the scheduler reads the clock again: `later`). */
  function StartPlayback(s: State, now: int, later: int): (r: Step)
    requires Valid(s)
    ensures Valid(r.state) && SameBuffer(s, r.state)
    ensures r.state.recordStart == s.recordStart
    ensures s.count == 0 ==> r == Step(s, [])
    ensures s.count > 0 ==>
              && !r.state.recording && r.state.playing
              && r.state.playIndex == 0 && r.state.playStart == now
              && r.effects == [Cancel, Arm(DelayUntil(now + Contents(s)[0].time, later))]
  {
    if s.count == 0 then Step(s, [])
    else
      var stopped := Stop(s);
      var started := stopped.state.(playing := true, playIndex := 0, playStart := now);
      Step(started, stopped.effects + ScheduleNext(started, later))
  }

  /** Once `play` has started, one tick per event sends the whole recording
      out in order and brings the cursor back to the first event, ready for the
      next pass. */
  lemma PlaybackLoops(s: State, now: int, later: int, clock: seq<Reading>)
    requires Valid(s) && s.count > 0 && |clock| == s.count
    ensures var p := StartPlayback(s, now, later).state;
      && Emitted(RunTicks(p, clock).effects) == Values(Contents(s))
      && RunTicks(p, clock).state.playIndex == 0
      && RunTicks(p, clock).state.playing
  {
    var p := StartPlayback(s, now, later).state;
    ReplayToEnd(p, clock);
    assert Contents(p)[0..] == Contents(s);
  }

  /** Two events 100 ms apart, played from time t: the first goes out at t,
      the second 100 ms later, and that tick restarts the pass so the first
      event is due again at once. */
  lemma TwoEventPass(t: int)
    ensures var s := State(false, 0, [Event(0, 1.0), Event(100, 2.0)], 2, 2, false, 0, 0);
      var p := StartPlayback(s, t, t);
      var a := PlaybackTick(p.state, t, t);
      var b := PlaybackTick(a.state, t + 100, t + 100);
      && p.effects == [Cancel, Arm(0)]
      && a.effects == [Emit(1.0), Arm(100)]
      && b.effects == [Emit(2.0), Arm(0)]
      && b.state.playIndex == 0 && b.state.playStart == t + 100
  {
  }

  /** `record` while playing leaves both flags set: the two modes are not
      exclusive in general. */
  lemma RecordWhilePlaying(s: State, now: int)
    requires Valid(s) && s.playing
    ensures StartRecording(s, now).recording && StartRecording(s, now).playing
  {
  }

  /** A tick left pending by `record` during playback that fires before any
      input arrives finds an empty recording: it sends nothing, arms nothing
      and changes nothing, although `playing` stays set. */
  lemma TickAfterRecordIsSilent(s: State, now: int, tickNow: int, tickLater: int)
    requires Valid(s) && s.playing
    ensures var r := StartRecording(s, now);
      PlaybackTick(r, tickNow, tickLater) == Step(r, []) && r.playing
  {
  }

  /** If more inputs than the kept cursor arrive before that pending tick
      fires, the tick plays the recording still being made: it sends the new
      event under the old cursor and times the next one against the old
      `playStart`, unless the cursor's event was the last one, in which case
      the pass restarts at the tick's clock reading. Both flags stay set. */
  lemma TickAfterRecordAndInputs(s: State, now: int, inputs: seq<Input>, alloc: Allocator,
                                 tickNow: int, tickLater: int)
    requires Valid(s) && s.playing && s.playIndex < |inputs|
    requires forall c :: alloc(c)
    ensures var r := Feed(StartRecording(s, now), inputs, alloc);
      var t := PlaybackTick(r, tickNow, tickLater);
      && r.recording && r.playing && r.count == |inputs|
      && r.playIndex == s.playIndex && r.playStart == s.playStart
      && |t.effects| == 2
      && t.effects[0] == Emit(inputs[s.playIndex].value)
      && t.state.recording && t.state.playing
      && (s.playIndex + 1 < |inputs| ==>
            && t.state.playStart == s.playStart
            && t.effects[1] == Arm(DelayUntil(s.playStart + (inputs[s.playIndex + 1].at - now), tickLater)))
      && (s.playIndex + 1 == |inputs| ==>
            && t.state.playIndex == 0 && t.state.playStart == tickNow
            && t.effects[1] == Arm(DelayUntil(tickNow + (inputs[0].at - now), tickLater)))
  {
    RecordFromStart(s, now, inputs, alloc);
    var r := Feed(StartRecording(s, now), inputs, alloc);
    assert Contents(r)[s.playIndex] == Event(inputs[s.playIndex].at - now, inputs[s.playIndex].value);
    if s.playIndex + 1 < |inputs| {
      assert Contents(r)[s.playIndex + 1]
          == Event(inputs[s.playIndex + 1].at - now, inputs[s.playIndex + 1].value);
    } else {
      assert Contents(r)[0] == Event(inputs[0].at - now, inputs[0].value);
    }
  }

  /** `play` on an empty buffer returns before stopping, so a recording in
      progress keeps going. */
  lemma PlayEmptyKeepsRecording(s: State, now: int, later: int)
    requires Valid(s) && s.recording && s.count == 0
    ensures StartPlayback(s, now, later).state.recording
  {
  }

  /** A sequence of slider values fed in one after another. */
  function Feed(s: State, inputs: seq<Input>, alloc: Allocator): (r: State)
    requires Valid(s)
    ensures Valid(r) && SameControl(s, r)
    ensures s.count <= r.count
    decreases |inputs|
  {
    if |inputs| == 0 then s
    else Feed(OnFloat(s, inputs[0].value, inputs[0].at, alloc), inputs[1..], alloc)
  }

  /** Feeding inputs never rewrites the recording: what was there stays a
      prefix of what there is after, whether or not recording is on and
      whether or not memory lasts. */
  lemma {:induction false} FeedKeepsPrefix(s: State, inputs: seq<Input>, alloc: Allocator)
    requires Valid(s)
    ensures Contents(Feed(s, inputs, alloc))[..s.count] == Contents(s)
    decreases |inputs|
  {
    if |inputs| > 0 {
      var next := OnFloat(s, inputs[0].value, inputs[0].at, alloc);
      FeedKeepsPrefix(next, inputs[1..], alloc);
      assert Contents(next)[..s.count] == Contents(s);
    }
  }

  /** The events a recording started at `start` makes of the inputs: each
      value stamped with its arrival time less the start. */
  function Stamped(inputs: seq<Input>, start: int): (es: seq<Event>)
    ensures |es| == |inputs|
    ensures forall i :: 0 <= i < |inputs| ==>
              es[i] == Event(inputs[i].at - start, inputs[i].value)
  {
    seq(|inputs|, i requires 0 <= i < |inputs| => Event(inputs[i].at - start, inputs[i].value))
  }

  lemma StampedCons(inputs: seq<Input>, start: int)
    requires |inputs| > 0
    ensures Stamped(inputs, start)
         == [Event(inputs[0].at - start, inputs[0].value)] + Stamped(inputs[1..], start)
  {
  }

  /** While recording and while memory lasts, one input becomes one event
      stamped relative to the recording start, and recording goes on. */
  lemma OnFloatRecords(s: State, input: Input, alloc: Allocator)
    requires Valid(s) && s.recording
    requires forall c :: alloc(c)
    ensures var r := OnFloat(s, input.value, input.at, alloc);
      && Valid(r) && r.recording && r.recordStart == s.recordStart
      && Contents(r) == Contents(s) + [Event(input.at - s.recordStart, input.value)]
  {
    assert alloc(RecordGrowth(s.capacity));
  }

  lemma FeedCons(s: State, inputs: seq<Input>, alloc: Allocator)
    requires Valid(s) && |inputs| > 0
    ensures Feed(s, inputs, alloc)
         == Feed(OnFloat(s, inputs[0].value, inputs[0].at, alloc), inputs[1..], alloc)
  {
  }

  lemma Splice(all: seq<Event>, next: seq<Event>, before: seq<Event>, e: Event,
               rest: seq<Event>, stamped: seq<Event>)
    requires all == next + rest && next == before + [e] && stamped == [e] + rest
    ensures all == before + stamped
  {
  }

  /** While recording, and while the allocator grants every request, n inputs
      become exactly n events, each stamped relative to the recording start. */
  lemma {:induction false} RecordTimestamps(s: State, inputs: seq<Input>, alloc: Allocator)
    requires Valid(s) && s.recording
    requires forall c :: alloc(c)
    ensures Contents(Feed(s, inputs, alloc)) == Contents(s) + Stamped(inputs, s.recordStart)
    decreases |inputs|
  {
    if |inputs| == 0 {
      assert Stamped(inputs, s.recordStart) == [];
    } else {
      var e := Event(inputs[0].at - s.recordStart, inputs[0].value);
      var next := OnFloat(s, inputs[0].value, inputs[0].at, alloc);
      OnFloatRecords(s, inputs[0], alloc);
      FeedCons(s, inputs, alloc);
      RecordTimestamps(next, inputs[1..], alloc);
      StampedCons(inputs, s.recordStart);
      Splice(Contents(Feed(s, inputs, alloc)), Contents(next), Contents(s), e,
             Stamped(inputs[1..], s.recordStart), Stamped(inputs, s.recordStart));
    }
  }

  /** A `record` followed by values recorded while memory lasts holds exactly
      those values, stamped from the moment `record` arrived. */
  lemma RecordFromStart(s: State, now: int, inputs: seq<Input>, alloc: Allocator)
    requires Valid(s)
    requires forall c :: alloc(c)
    ensures Contents(Feed(StartRecording(s, now), inputs, alloc)) == Stamped(inputs, now)
  {
    RecordTimestamps(StartRecording(s, now), inputs, alloc);
  }

  /** With a clock that does not go backward, a recording holds its events in
      time order, none before the moment `record` arrived. (A load can store
      rows in any order, so this is not an invariant of the object.) */
  lemma RecordedTimesNonDecreasing(s: State, now: int, inputs: seq<Input>, alloc: Allocator)
    requires Valid(s)
    requires forall c :: alloc(c)
    requires forall i :: 0 <= i < |inputs| ==> now <= inputs[i].at
    requires forall i, j :: 0 <= i <= j < |inputs| ==> inputs[i].at <= inputs[j].at
    ensures var es := Contents(Feed(StartRecording(s, now), inputs, alloc));
      forall i, j :: 0 <= i <= j < |es| ==> 0 <= es[i].time <= es[j].time
  {
    RecordFromStart(s, now, inputs, alloc);
  }
}

=== FILE: event_buffer.dfy ===
/** The growable event buffer and the record path's append (`add_event`). */
module EventBuffer {
  import opened SliderState

  /** What a slot holds after growth added it and before anything wrote it.
      The allocator leaves such memory indeterminate; no handler reads a slot
      at or past `count`, so the choice of filler is never observed. */
  const Unwritten := Event(0, 0.0)

  /** The storage resized to `newCapacity` slots, every existing slot kept. */
  function Grow(s: State, newCapacity: nat): (r: State)
    requires Valid(s) && s.capacity <= newCapacity
    ensures Valid(r) && r.capacity == newCapacity
    ensures Contents(r) == Contents(s)
    ensures r == s.(events := r.events, capacity := newCapacity)
  {
    s.(events := s.events + seq(newCapacity - s.capacity, _ => Unwritten), capacity := newCapacity)
  }

  /** One event written into the first free slot. */
  function Store(s: State, e: Event): (r: State)
    requires Valid(s) && s.count < s.capacity
    ensures Valid(r) && r.capacity == s.capacity
    ensures Contents(r) == Contents(s) + [e]
    ensures r == s.(events := r.events, count := s.count + 1)
  {
    s.(events := s.events[s.count := e], count := s.count + 1)
  }

  /** The capacity a full buffer asks for while recording: double the old one,
      and never less than 16. */
  function RecordGrowth(capacity: int): (c: nat)
    ensures c >= 16 && c >= 2 * capacity
    ensures c == 16 || c == 2 * capacity
  {
    if capacity * 2 < 16 then 16 else capacity * 2
  }

  /** Appending one slider value at time `now`. A full buffer first grows to
      `RecordGrowth(capacity)`; if the allocator refuses, nothing changes. */
  function AddEvent(s: State, value: real, now: int, alloc: Allocator): (r: State)
    requires Valid(s)
    ensures Valid(r) && SameControl(s, r)
    ensures s.count < s.capacity ==>
              && r.capacity == s.capacity
              && Contents(r) == Contents(s) + [Event(now - s.recordStart, value)]
    ensures s.count == s.capacity && alloc(RecordGrowth(s.capacity)) ==>
              && r.capacity == RecordGrowth(s.capacity)
              && Contents(r) == Contents(s) + [Event(now - s.recordStart, value)]
    ensures s.count == s.capacity && !alloc(RecordGrowth(s.capacity)) ==> r == s
  {
    if s.count >= s.capacity then
      var newCapacity := RecordGrowth(s.capacity);
      if !alloc(newCapacity) then s
      else Store(Grow(s, newCapacity), Event(now - s.recordStart, value))
    else
      Store(s, Event(now - s.recordStart, value))
  }

  /** A successful append grows the recording by exactly one event, written
      at the old count, with every earlier event left as it was. */
  lemma AddEventAppendsOne(s: State, value: real, now: int, alloc: Allocator)
    requires Valid(s)
    requires s.count < s.capacity || alloc(RecordGrowth(s.capacity))
    ensures var r := AddEvent(s, value, now, alloc);
      && r.count == s.count + 1
      && r.events[s.count] == Event(now - s.recordStart, value)
      && (forall i :: 0 <= i < s.count ==> r.events[i] == s.events[i])
  {
    var r := AddEvent(s, value, now, alloc);
    assert Contents(r)[s.count] == Event(now - s.recordStart, value);
    assert forall i :: 0 <= i < s.count ==> Contents(r)[i] == Contents(s)[i];
  }
}

=== FILE: persistence.dfy ===
/** Saving and loading the recording (`save_to_file`, `load_from_file`).

    The text itself is outside the model: a saved file is its header line and
    its rows in order, and a file being loaded is what reading gives back —
    either it could not be opened, or the characters `fgets` took as its first
    line together with the (time, value) pairs `fscanf` then accepted. `fscanf`
    reads whitespace-separated numbers, not lines, starting right after the
    characters `fgets` took, and stops at its first mismatch. */
module Persistence {
  import opened SliderState
  import opened EventBuffer
  import opened Scheduler

  /** The tag a loaded file's first line must begin with. */
  const FormatTag: string := "sliderloop_data"

  /** The first line every saved file carries. */
  const HeaderLine: string := "sliderloop_data_v1.0\n"

  /** What `save` writes: the header line, then one (time, value) row per
      event in recording order. */
  datatype SavedFile = SavedFile(header: string, rows: seq<Event>)

  /** What `load` reads: nothing, when the file cannot be opened; otherwise the
      characters `fgets` took as the first line (`None` for an empty file) and
      the pairs `fscanf` accepted after them, up to its first mismatch. */
  datatype FileRead = Unopenable | Opened(firstLine: Option<string>, rows: seq<Event>)

  /** The message `load` ends with. */
  datatype Report = CouldNotOpen | InvalidFormat | MemoryError | LoadedPoints(n: int)

  datatype Loaded = Loaded(state: State, report: Report)

  /** The format check: the first line begins with the tag. */
  predicate HeaderAccepted(line: string) {
    |FormatTag| <= |line| && line[..|FormatTag|] == FormatTag
  }

  /** `save`: when the file opens, the header line then every event of the
      recording in order; when it does not, nothing is written. */
  function Save(s: State, canOpen: bool): (f: Option<SavedFile>)
    requires Valid(s)
    ensures !canOpen ==> f == None
    ensures canOpen ==>
              && f.Some? && f.value.header == HeaderLine
              && |f.value.rows| == s.count
              && forall i :: 0 <= i < s.count ==> f.value.rows[i] == s.events[i]
  {
    if canOpen then Some(SavedFile(HeaderLine, Contents(s))) else None
  }

  /** Reading back a saved file, with the number formatting taken as exact. */
  function ReadBack(f: SavedFile): (r: FileRead)
    ensures r.Opened? && r.firstLine == Some(f.header) && r.rows == f.rows
  {
    Opened(Some(f.header), f.rows)
  }

  /** The header `save` writes passes the check `load` makes. */
  lemma SavedHeaderAccepted()
    ensures HeaderAccepted(HeaderLine)
  {
    assert HeaderLine[..|FormatTag|] == FormatTag;
  }

  /** The capacity a full buffer asks for while loading: 64 when there is no
      storage yet, double the old capacity otherwise. */
  function LoadGrowth(capacity: int): (c: nat)
    requires capacity >= 0
    ensures c > capacity
    ensures capacity == 0 ==> c == 64
    ensures capacity > 0 ==> c == 2 * capacity
  {
    if capacity != 0 then capacity * 2 else 64
  }

  /** The capacity a load starting from capacity `c0` has once it holds `n`
      rows: the first of c0, LoadGrowth(c0), LoadGrowth(LoadGrowth(c0)), ...
      that is at least `n`. */
  function CapacityFor(c0: nat, n: nat): (c: nat)
    ensures c >= n && c >= c0
    decreases n - c0
  {
    if n <= c0 then c0 else CapacityFor(LoadGrowth(c0), n)
  }

  /** Holding one more row either fits the current capacity or takes exactly
      one growth step. */
  lemma {:induction false} CapacityForStep(c0: nat, n: nat)
    ensures n < CapacityFor(c0, n) ==> CapacityFor(c0, n + 1) == CapacityFor(c0, n)
    ensures n == CapacityFor(c0, n) ==> CapacityFor(c0, n + 1) == LoadGrowth(n)
    decreases n - c0
  {
    if n + 1 <= c0 {
    } else if n == c0 {
      assert CapacityFor(LoadGrowth(c0), n + 1) == LoadGrowth(c0);
    } else {
      CapacityForStep(LoadGrowth(c0), n);
    }
  }

  /** Row `i` of a load from capacity `c0` finds the buffer full and the
      allocator refuses the growth. */
  predicate FailsAt(c0: nat, alloc: Allocator, i: nat) {
    CapacityFor(c0, i) == i && !alloc(LoadGrowth(i))
  }

  /** One loaded row stored, after growing a full buffer by `LoadGrowth`
      when the allocator grants it. */
  function StoreNext(s: State, e: Event, alloc: Allocator): (r: State)
    requires Valid(s)
    requires s.count < s.capacity || alloc(LoadGrowth(s.capacity))
    ensures Valid(r) && SameControl(s, r)
    ensures r.count == s.count + 1
    ensures Contents(r) == Contents(s) + [e]
    ensures s.count < s.capacity ==> r.capacity == s.capacity
    ensures s.count == s.capacity ==> r.capacity == LoadGrowth(s.capacity)
  {
    var room := if s.count >= s.capacity then Grow(s, LoadGrowth(s.capacity)) else s;
    Store(room, e)
  }

  /** The rows appended in order; a full buffer grows by `LoadGrowth`, and a
      refused growth ends the load with the rows stored so far. */
  function LoadRows(s: State, rows: seq<Event>, alloc: Allocator): (r: Loaded)
    requires Valid(s)
    ensures Valid(r.state) && SameControl(s, r.state)
    ensures s.count <= r.state.count <= s.count + |rows|
    ensures Contents(r.state)[..s.count] == Contents(s)
    ensures forall i :: s.count <= i < r.state.count ==> r.state.events[i] == rows[i - s.count]
    decreases |rows|
  {
    if |rows| == 0 then Loaded(s, LoadedPoints(s.count))
    else if s.count >= s.capacity && !alloc(LoadGrowth(s.capacity)) then Loaded(s, MemoryError)
    else
      var next := StoreNext(s, rows[0], alloc);
      LoadRows(next, rows[1..], alloc)
  }

  /** What a load of `rows` from capacity `c0` ends with, independently of how
      it proceeds: the first k rows, k being the first row whose growth the
      allocator refused (or all of them), the capacity the growth policy gives
      for k rows, and the matching report. */
  predicate LoadOutcome(c0: nat, rows: seq<Event>, alloc: Allocator, r: Loaded) {
    var k := r.state.count;
    && Valid(r.state)
    && 0 <= k <= |rows|
    && Contents(r.state) == rows[..k]
    && r.state.capacity == CapacityFor(c0, k)
    && (forall j :: 0 <= j < k ==> !FailsAt(c0, alloc, j))
    && (k < |rows| ==> FailsAt(c0, alloc, k) && r.report == MemoryError)
    && (k == |rows| ==> r.report == LoadedPoints(k))
  }

  lemma {:induction false} LoadRowsOutcome(c0: nat, s: State, rows: seq<Event>, alloc: Allocator)
    requires Valid(s) && s.count <= |rows|
    requires Contents(s) == rows[..s.count]
    requires s.capacity == CapacityFor(c0, s.count)
    requires forall j :: 0 <= j < s.count ==> !FailsAt(c0, alloc, j)
    ensures LoadOutcome(c0, rows, alloc, LoadRows(s, rows[s.count..], alloc))
    decreases |rows| - s.count
  {
    var rest := rows[s.count..];
    if |rest| == 0 {
      assert rows[..s.count] == rows;
    } else if s.count >= s.capacity && !alloc(LoadGrowth(s.capacity)) {
      assert FailsAt(c0, alloc, s.count);
    } else {
      var next := StoreNext(s, rest[0], alloc);
      CapacityForStep(c0, s.count);
      assert next.capacity == CapacityFor(c0, next.count);
      assert !FailsAt(c0, alloc, s.count);
      assert Contents(next) == rows[..next.count] by {
        assert rows[..s.count + 1] == rows[..s.count] + [rows[s.count]];
      }
      assert rest[1..] == rows[next.count..];
      LoadRowsOutcome(c0, next, rows, alloc);
    }
  }

  /** `load`: a file that does not open leaves everything as it was. Otherwise
      the recording is emptied first; a first line without the format tag ends
      the load there, and an accepted one is followed by the rows, appended as
      `LoadOutcome` describes. The flags, the cursor and the timer are never
      touched. */
  function Load(s: State, file: FileRead, alloc: Allocator): (r: Loaded)
    requires Valid(s)
    ensures Valid(r.state) && SameControl(s, r.state)
    ensures file.Unopenable? ==> r == Loaded(s, CouldNotOpen)
    ensures file.Opened? && !(file.firstLine.Some? && HeaderAccepted(file.firstLine.value)) ==>
              && r.report == InvalidFormat
              && r.state.count == 0
              && r.state.events == s.events && r.state.capacity == s.capacity
    ensures file.Opened? && file.firstLine.Some? && HeaderAccepted(file.firstLine.value) ==>
              LoadOutcome(s.capacity, file.rows, alloc, r)
  {
    match file
    case Unopenable => Loaded(s, CouldNotOpen)
    case Opened(firstLine, rows) =>
      var cleared := s.(count := 0);
      if firstLine.None? || !HeaderAccepted(firstLine.value) then Loaded(cleared, InvalidFormat)
      else
        assert rows[0..] == rows;
        LoadRowsOutcome(s.capacity, cleared, rows, alloc);
        LoadRows(cleared, rows, alloc)
  }

  /** With the allocator granting every request, a load with an accepted
      header keeps every row. */
  lemma LoadKeepsAllRows(s: State, header: string, rows: seq<Event>, alloc: Allocator)
    requires Valid(s) && HeaderAccepted(header)
    requires forall c :: alloc(c)
    ensures var r := Load(s, Opened(Some(header), rows), alloc);
      Contents(r.state) == rows && r.report == LoadedPoints(|rows|)
  {
  }

  /** Saving a recording and loading the file back, into the same object or
      any other, reproduces the recording, while memory lasts. */
  lemma SaveLoadRoundTrip(s: State, into: State, alloc: Allocator)
    requires Valid(s) && Valid(into)
    requires forall c :: alloc(c)
    ensures var r := Load(into, ReadBack(Save(s, true).value), alloc);
      Contents(r.state) == Contents(s) && r.report == LoadedPoints(s.count)
  {
    SavedHeaderAccepted();
    LoadKeepsAllRows(into, HeaderLine, Contents(s), alloc);
  }

  /** A load leaves the flags, the cursor and the pending timer alone. When
      the new recording is no longer than the cursor (a shorter file, a
      rejected header, an early memory error) the pending tick fails its guard:
      it sends nothing and arms nothing, and playback halts with `playing`
      still set. Otherwise the tick sends the new recording's event under the
      old cursor. */
  lemma TickAfterLoad(s: State, file: FileRead, alloc: Allocator, now: int, later: int)
    requires Valid(s) && s.playing
    ensures var r := Load(s, file, alloc).state;
      && r.playing && r.playIndex == s.playIndex && r.playStart == s.playStart
      && (r.count <= s.playIndex ==> PlaybackTick(r, now, later) == Step(r, []))
      && (s.playIndex < r.count ==>
            PlaybackTick(r, now, later).effects[0] == Emit(Contents(r)[s.playIndex].value))
  {
  }
}

=== FILE: scheduler.dfy ===
/** The replay scheduler: arming the timer for the next event
    (`schedule_next`) and the timer's callback (`playback_tick`). */
module Scheduler {
  import opened SliderState

  /** The two clock readings one tick may take: `now` when the loop restarts,
      and `later` when the next tick is scheduled. */
  datatype Reading = Reading(now: int, later: int)

  /** The timer delay for a target time seen at `now`: the fire time is the
      target itself when it lies ahead, and immediately when it has passed. */
  function DelayUntil(target: int, now: int): (d: int)
    ensures d >= 0
    ensures target >= now ==> now + d == target
    ensures target < now ==> d == 0
  {
    var d := target - now;
    if d < 0 then 0 else d
  }

  /** Arming the timer for the event under the play cursor, relative to the
      start of the current pass. Nothing is armed when not playing or when the
      cursor is past the recording. */
  function ScheduleNext(s: State, now: int): (effects: seq<Effect>)
    requires Valid(s)
    ensures !s.playing || s.playIndex >= s.count ==> effects == []
    ensures s.playing && s.playIndex < s.count ==>
              effects == [Arm(DelayUntil(s.playStart + Contents(s)[s.playIndex].time, now))]
  {
    if !s.playing || s.playIndex >= s.count then []
    else
      var next := s.playStart + s.events[s.playIndex].time;
      [Arm(DelayUntil(next, now))]
  }

  /** The timer's callback: send the event under the cursor, advance the
      cursor, restart the pass (cursor 0, pass start `now`) after the last
      event, and arm the timer for the next event. */
  function PlaybackTick(s: State, now: int, later: int): (r: Step)
    requires Valid(s)
    ensures Valid(r.state) && SameBuffer(s, r.state)
    ensures r.state.recording == s.recording && r.state.recordStart == s.recordStart
    ensures r.state.playing == s.playing
    ensures !s.playing || s.playIndex >= s.count ==> r == Step(s, [])
    ensures s.playing && s.playIndex < s.count ==>
              && 0 <= r.state.playIndex < r.state.count
              && |r.effects| == 2
              && r.effects[0] == Emit(Contents(s)[s.playIndex].value)
              && r.effects[1..] == ScheduleNext(r.state, later)
              && r.effects[1].Arm? && r.effects[1].delay >= 0
              && (s.playIndex + 1 < s.count ==>
                    r.state.playIndex == s.playIndex + 1 && r.state.playStart == s.playStart)
              && (s.playIndex + 1 == s.count ==>
                    r.state.playIndex == 0 && r.state.playStart == now)
  {
    if !s.playing || s.playIndex >= s.count then Step(s, [])
    else
      var emit := Emit(s.events[s.playIndex].value);
      var advanced := s.(playIndex := s.playIndex + 1);
      var next :=
        if advanced.playIndex >= advanced.count then advanced.(playIndex := 0, playStart := now)
        else advanced;
      Step(next, [emit] + ScheduleNext(next, later))
  }

  /** A run of timer ticks, one per clock reading, with their effects in order. */
  function RunTicks(s: State, clock: seq<Reading>): (r: Step)
    requires Valid(s)
    ensures Valid(r.state) && SameBuffer(s, r.state)
    ensures r.state.recording == s.recording && r.state.playing == s.playing
    ensures s.playing && s.playIndex < s.count ==> r.state.playIndex < r.state.count
    decreases |clock|
  {
    if |clock| == 0 then Step(s, [])
    else
      var first := PlaybackTick(s, clock[0].now, clock[0].later);
      var rest := RunTicks(first.state, clock[1..]);
      Step(rest.state, first.effects + rest.effects)
  }

  /** From any cursor position, ticking once per remaining event sends out the
      rest of the recording in order and leaves the cursor back at 0. */
  lemma {:induction false} ReplayToEnd(s: State, clock: seq<Reading>)
    requires Valid(s) && s.playing && s.playIndex < s.count
    requires |clock| == s.count - s.playIndex
    ensures Emitted(RunTicks(s, clock).effects) == Values(Contents(s)[s.playIndex..])
    ensures RunTicks(s, clock).state.playIndex == 0
    decreases |clock|
  {
    var first := PlaybackTick(s, clock[0].now, clock[0].later);
    var rest := RunTicks(first.state, clock[1..]);
    var v := Contents(s)[s.playIndex].value;
    EmittedAppend(first.effects, rest.effects);
    assert first.effects == [first.effects[0]] + first.effects[1..];
    EmittedAppend([first.effects[0]], first.effects[1..]);
    assert Emitted(first.effects) == [v];
    var tail := Contents(s)[s.playIndex..];
    assert tail == [Contents(s)[s.playIndex]] + Contents(s)[s.playIndex + 1..];
    assert Values(tail) == [v] + Values(Contents(s)[s.playIndex + 1..]);
    if s.playIndex + 1 == s.count {
      assert clock[1..] == [];
      assert Contents(s)[s.playIndex + 1..] == [];
    } else {
      assert Contents(first.state) == Contents(s);
      ReplayToEnd(first.state, clock[1..]);
    }
  }
}

=== FILE: state.dfy ===
/** The state of one sliderloop object, the effects its handlers ask of the
    host, and the invariant every handler keeps.

    Times are whole milliseconds and slider values are reals; no claim is made
    about floating-point precision. Every reading of the wall clock is passed in
    as a parameter, and the host's timer and outlet are requests a handler
    returns (`Effect`) rather than calls it makes. */
module SliderState {

  datatype Option<T> = None | Some(value: T)

  /** One recorded sample: milliseconds since recording began, and the value. */
  datatype Event = Event(time: int, value: real)

  /** A request to the host: arm the object's one-shot timer to fire after
      `delay` milliseconds (superseding any pending one), cancel the pending
      timer, or send a value out of the outlet. */
  datatype Effect = Arm(delay: int) | Cancel | Emit(value: real)

  /** Whether the allocator grants a request to resize the buffer to the given
      capacity. */
  type Allocator = nat -> bool

  /** The object's fields. `events` is the allocated storage, one slot per
      unit of `capacity`; only the first `count` slots hold the recording. */
  datatype State = State(
    recording: bool,
    recordStart: int,
    events: seq<Event>,
    count: int,
    capacity: int,
    playing: bool,
    playStart: int,
    playIndex: int)

  /** A handler's new state and the effects it performed, in order. */
  datatype Step = Step(state: State, effects: seq<Effect>)

  /** The invariant every handler keeps: the count never exceeds the capacity,
      the storage has exactly `capacity` slots, and the play cursor is not
      negative. The cursor is NOT kept below the count: recording or loading
      while playing can shrink the count under it. */
  predicate Valid(s: State) {
    && 0 <= s.count <= s.capacity
    && |s.events| == s.capacity
    && 0 <= s.playIndex
  }

  /** The recording: the first `count` slots of the storage. */
  function Contents(s: State): (es: seq<Event>)
    requires Valid(s)
    ensures |es| == s.count
    ensures forall i :: 0 <= i < s.count ==> es[i] == s.events[i]
  {
    s.events[..s.count]
  }

  /** Two states agree on the recording and playback control fields. */
  predicate SameControl(a: State, b: State) {
    && a.recording == b.recording
    && a.recordStart == b.recordStart
    && a.playing == b.playing
    && a.playStart == b.playStart
    && a.playIndex == b.playIndex
  }

  /** Two states agree on the buffer: storage, count and capacity. */
  predicate SameBuffer(a: State, b: State) {
    a.events == b.events && a.count == b.count && a.capacity == b.capacity
  }

  /** The values of a sequence of events, in order. */
  function Values(es: seq<Event>): (vs: seq<real>)
    ensures |vs| == |es|
    ensures forall i :: 0 <= i < |es| ==> vs[i] == es[i].value
  {
    seq(|es|, i requires 0 <= i < |es| => es[i].value)
  }

  /** The values a sequence of effects sends out of the outlet, in order. */
  function Emitted(effects: seq<Effect>): seq<real> {
    if |effects| == 0 then []
    else (if effects[0].Emit? then [effects[0].value] else []) + Emitted(effects[1..])
  }

  lemma {:induction false} EmittedAppend(a: seq<Effect>, b: seq<Effect>)
    ensures Emitted(a + b) == Emitted(a) + Emitted(b)
    decreases |a|
  {
    if |a| == 0 {
      assert a + b == b;
    } else {
      assert (a + b)[1..] == a[1..] + b;
      EmittedAppend(a[1..], b);
    }
  }

  /** A newly created object: idle, with no storage and an empty recording.
      The fields the constructor does not set start zeroed. */
  function Init(): (s: State)
    ensures Valid(s)
    ensures Contents(s) == [] && s.capacity == 0
    ensures !s.recording && !s.playing
  {
    State(false, 0, [], 0, 0, false, 0, 0)
  }
}
